=== FILE: README.md ===
# Air-quality monitor: acquisition, reduction and publication

This project models the core of `monitoring-app`, a small service that samples a
PMS7003 particulate sensor over a serial line and publishes the readings to an
MQTT broker. One cycle does the following:

- wakes the sensor and retries until a read confirms it answers;
- discards reads during a warm-up period;
- collects a configured number of good frames, skipping failed reads;
- puts the sensor to sleep;
- reduces the frames to one status, the truncated mean of each channel;
- publishes the status as four retained, at-least-once messages.

Modules:

- `Units`: the `u16`/`u32` ranges the program uses.
- `Results`: `Option` and `Result`.
- `Pms7003`: the sensor and the log of calls made to it. The sensor is a scripted
  oracle with one reply stream each for `wake()` and `read()`. Every call consumes
  the head of its stream. `sleep()` always returns and consumes nothing, because
  its reply is discarded (`let _ = sensor.sleep()`, main.rs:105).
  `Replays(s, log, rest)` says the log is exactly what the sensor answered.
- `Aggregation`: `status_from_measurements`, with checked `u32` sums and the
  `len() as u32` cast written out.
- `Acquisition`: `get_air_quality_status`. There is one method per loop (wake,
  warm-up, collect), plus the whole protocol and the reduction.
- `Decimal`: `format!("{}", n)` and the subscriber's reading of it.
- `Mqtt`: messages, the broker connection as a log of accepted messages plus
  scripted replies, and the retained-message store of section 3.3.1.3 of MQTT 3.1.1.
- `Publisher`: `publish_status`.
- `Monitor`: one scheduled cycle, acquiring (with `unwrap`) and then publishing.

The program's wake and collect loops retry without a deadline (so does the
warm-up loop, until its clock check passes). In the model, a `wake()` or `read()`
whose reply stream is empty ends the phase `Unfinished` (`Stalled` for an
acquisition, `SensorStalled` for a cycle). This stands for a loop that would
still be waiting or retrying. It adds no deadline to the modelled behaviour.

Three behaviours of the code are easy to miss:

- A failing `wake()` is propagated with `?` (main.rs:76), not retried.
- With `measurements == 0`, the collect loop exits at once. The reduction then
  divides by zero (main.rs:94, 150). The model returns `Panicked(DivideByZero)`.
- Channel payloads are plain decimal numbers with no unit suffix (main.rs:124, 132, 140).

## Model

| member | source | states |
|---|---|---|
| Pms7003.Successes | monitoring-app/src/main.rs:94-101 | every kept frame comes from a successful read, every successful read's frame is kept, and there are never more frames than reads |
| Pms7003.SuccessesInOrder | monitoring-app/src/main.rs:94-101 | the frame of the successful read at position `i` comes in the kept frames right after the frames of the reads before it, so the frames keep the order they were read in |
| Pms7003.SuccessesConcat | monitoring-app/src/main.rs:94-101 | the frames kept from two consecutive stretches of reads are those of the first stretch followed by those of the second |
| Aggregation.CheckedSumExact | monitoring-app/src/main.rs:149-153 | the left-fold `u32` sum panics with overflow exactly when the true channel sum exceeds 2^32-1, and otherwise equals it |
| Aggregation.ChannelMean | monitoring-app/src/main.rs:149-153 | one channel succeeds iff its sum fits in `u32` and `len as u32` is non-zero; it is then the sum divided by `len as u32`; otherwise it is the matching panic (overflow before division by zero) |
| Aggregation.StatusFromMeasurements | monitoring-app/src/main.rs:147-156 | the status exists iff all three sums fit and the truncated count is non-zero; a failure is a division by zero exactly when the first channel's sum fits and the truncated count is 0, and an overflow otherwise; an empty slice always divides by zero; each channel is its sum over the truncated count; the timestamp is the reduction time |
| Aggregation.SumsFitUpToBound | monitoring-app/src/main.rs:149-153 | up to 65537 frames no channel sum overflows `u32` (65537 * 65535 = 2^32-1) |
| Aggregation.StatusIsTruncatedMean | monitoring-app/src/main.rs:147-153 | for 1..65537 frames the reduction succeeds, and each channel is the integer mean of that channel, truncated |
| Aggregation.MeanWithinRange | monitoring-app/src/main.rs:149-153 | the truncated mean of a non-empty channel lies between its smallest and largest reading |
| Aggregation.StatusWithinChannelRange | monitoring-app/src/main.rs:147-155 | assuming no sum overflows and the count fits in `u32`, every channel of the status lies between the channel's minimum and maximum reading |
| Aggregation.AggregationExample | monitoring-app/src/main.rs:147-153 | readings 1, 2, 3 aggregate to 2; 10, 20, 40 to 23; 0, 0, 7 to 2 |
| Acquisition.WakeUntilResponsive | monitoring-app/src/main.rs:74-80 | the phase finishes only on a wake then a successful read, after rounds where the wake succeeded and the read failed; a failed wake ends it at once with that error; it stops unfinished only when the script has no wake reply, or no read reply after a good wake; the log replays the sensor |
| Acquisition.WarmUp | monitoring-app/src/main.rs:82-89 | only reads are made; the phase never fails; it finishes iff the script holds `checks + 1` reads, and then it made exactly that many, at least one, whatever they returned |
| Acquisition.Collect | monitoring-app/src/main.rs:91-102 | the kept frames are exactly the successful reads made, in order; failures do not count; it finishes iff the stream holds at least `target` successes; it then keeps exactly `target` frames and stops at the read reaching the target (no read when `target` is 0) |
| Acquisition.RunSensorProtocol | monitoring-app/src/main.rs:74-105 | the log replays the sensor; a finished run is a complete wake phase, exactly `checks + 1` warm-up reads, a collection that stops at the read giving the `target`-th frame, then one sleep, last; a wake failure skips every later phase including sleep; an unfinished run ran out of replies inside the wake, warm-up or collect phase and never slept |
| Acquisition.GetAirQualityStatus | monitoring-app/src/main.rs:70-108 | `Err` is the wake error; a status or panic comes exactly when the sensor was put to sleep, after all phases, and equals the reduction of the collected frames; a stall is a script running out before sleep; with zero measurements, a cycle that gets past the sensor (once the sensor has slept) ends in a division-by-zero panic |
| Decimal.Render | monitoring-app/src/main.rs:124 | a rendered number is a non-empty digit string with no leading zero |
| Decimal.ParseRender | monitoring-app/src/main.rs:124 | reading a rendered number gives the number back |
| Publisher.StatusMessages | monitoring-app/src/main.rs:110-142 | exactly four messages, all QoS 1 and retained, all under the prefix, with pairwise distinct topics: `/status` carrying the serialized status, then `/pm1_0`, `/pm2_5`, `/pm10` whose payloads are the channels' decimal renderings and read back as the three channels |
| Publisher.PublishStatus | monitoring-app/src/main.rs:110-142 | the four messages are sent in order iff the first four publishes are accepted; a rejected publish stops the sequence, and only the messages before it were sent; a publication that runs out of replies saw only accepted publishes |
| Publisher.SubscribersReadStatus | monitoring-app/src/main.rs:110-142 | after a full publication the retained store gives each channel topic the channel's value and the status topic the serialized status; every other topic is unchanged |
| Monitor.MonitorCycle | monitoring-app/src/main.rs:51-54 | the sensor log replays the sensor; a completed cycle went through all phases and published exactly the status of the frames read from the sensor; it completes only when the first four publishes are accepted, and a publication that runs out of replies saw only accepted ones; nothing is published when acquisition fails, panics or stalls; a failed publish sent a proper prefix of the messages; zero measurements never publish |

## Left out

- Command-line parsing (`Opts`, main.rs:11-32): modelled as a record holding only
  `topic` and `measurements`. `measurements` is a `nat`; its `usize` bound (the target's pointer width) is not modelled.
- `mqtt_connection` and its connection settings (keep-alive, in-flight cap,
  reconnection, clean session): these belong to a foreign network client. Publishing
  is abstracted to an accepted-or-rejected reply per call.
- Opening the serial device, the driver's frame parsing, and the driver's error
  variants: these are foreign I/O. `read` and `wake` are scripted replies; `sleep` always returns.
- `sensor.active()` at startup (main.rs:44): its result is discarded and it has no
  modelled effect on later replies.
- Acquisition.WarmUp: the 30-second wall-clock condition is a parameter
  `checks`, the number of exit checks that find the time not yet elapsed.
- Aggregation.StatusFromMeasurements: `chrono::Local::now()` is an opaque
  `Timestamp` passed in.
- Publisher.StatusMessages: the pretty-printed JSON of the whole status is a
  function parameter, `serialize`.
- Aggregation.ChannelMean: a `u32` overflow in the sum is modelled as a panic, as in
  checked (debug) builds. A release build wraps modulo 2^32 instead.
- The unbounded wake and collect loops: a finite reply script stands in for an
  endless one. Running out of replies gives `Unfinished`/`Stalled` rather than
  non-termination.
- The reply of `sleep()` (main.rs:105): it is discarded, so the model neither
  scripts nor records it, and sleep never stalls a cycle.
- The `clokwerk` scheduler, the outer `loop` with `thread::sleep`, and all console
  output (main.rs:49-59, println!/print! calls): scheduling and logging with no data
  behaviour beyond calling acquisition and then publication, which `Monitor.MonitorCycle` models.
- A panic ends the process in the program. The model returns it as an outcome and
  does not continue afterwards.

=== FILE: acquisition.dfy ===
/**
 One acquisition cycle of the particulate sensor: wake until a read confirms the
 sensor answers, warm up, collect the configured number of good frames, put the
 sensor to sleep and reduce the frames to a status.

 The program's loops retry without a deadline. Here each call consumes one
 scripted reply, and a phase that needs a reply the script does not hold ends
 `Unfinished`: the real loop would still be waiting or retrying.
 */
module Acquisition {
  import opened Results
  import opened Pms7003
  import opened Aggregation

  /** The options the cycle reads: the topic prefix and the number of frames per status. */
  datatype Opts = Opts(topic: string, measurements: nat)

  /** How a phase ended. */
  datatype PhaseEnd = Finished | Aborted(error: SensorError) | Unfinished

  /** How an acquisition ended. `SensorFailed` is the `Err` it returns; `Panicked` is a panic of the reduction. */
  datatype StatusResult =
    | Acquired(status: AirQualityStatus)
    | SensorFailed(error: SensorError)
    | Panicked(panic: Panic)
    | Stalled

  /** The calls of one cycle, phase by phase. */
  datatype Trace = Trace(wake: seq<Event>, warmUp: seq<Event>, collect: seq<Event>, sleep: seq<Event>)
  {
    function All(): seq<Event>
    {
      wake + warmUp + collect + sleep
    }
  }

  /** Every event of `log` is a read. */
  predicate OnlyPolls(log: seq<Event>)
  {
    forall i | 0 <= i < |log| :: log[i].Polled?
  }

  /** `log` is a run of rounds in which `wake()` succeeded and the confirming `read()` failed. */
  predicate FailedRounds(log: seq<Event>)
    decreases |log|
  {
    if log == [] then true
    else
      && |log| >= 2
      && log[|log| - 2] == Woke(Ack)
      && log[|log| - 1].Polled? && log[|log| - 1].outcome.ReadFailed?
      && FailedRounds(log[..|log| - 2])
  }

  /** The wake phase finished: failed rounds, then a good wake and a successful read. */
  predicate WakeSucceeded(log: seq<Event>)
  {
    && |log| >= 2 && FailedRounds(log[..|log| - 2])
    && log[|log| - 2] == Woke(Ack)
    && log[|log| - 1].Polled? && log[|log| - 1].outcome.Read?
  }

  /** The wake phase was aborted: failed rounds, then a failed wake whose error is returned. */
  predicate WakeFailed(log: seq<Event>, error: SensorError)
  {
    && |log| >= 1 && FailedRounds(log[..|log| - 1])
    && log[|log| - 1] == Woke(Nack(error))
  }

  /**
   The wake phase is still retrying when the script runs out, leaving `rest`:
   after failed rounds it has no wake reply, or after a good wake no read reply.
   */
  predicate WakeCutShort(log: seq<Event>, rest: Sensor)
  {
    || (FailedRounds(log) && rest.wakes == [])
    || (|log| >= 1 && FailedRounds(log[..|log| - 1]) && log[|log| - 1] == Woke(Ack) && rest.polls == [])
  }

  /** The warm-up made exactly `checks + 1` reads and nothing else. */
  predicate WarmedUp(log: seq<Event>, checks: nat)
  {
    OnlyPolls(log) && |log| == checks + 1
  }

  /**
   Collection finished with `frames`: only reads were made, `frames` are their
   successes and number `target`, and the last read was the one reaching the
   target (no read at all for a target of 0).
   */
  predicate Collected(log: seq<Event>, target: nat, frames: seq<Frame>)
  {
    && OnlyPolls(log)
    && frames == Successes(PollsOf(log))
    && |frames| == target
    && (target == 0 ==> log == [])
    && (target > 0 ==> |log| > 0 && log[|log| - 1].Polled? && log[|log| - 1].outcome.Read?)
  }

  /**
   Wake phase: `wake()` then `read()`, repeated until a read succeeds. A failed
   `wake()` ends the phase with its error; the confirming frame is dropped.
   */
  method WakeUntilResponsive(s: Sensor) returns (end: PhaseEnd, rest: Sensor, log: seq<Event>)
    ensures Replays(s, log, rest)
    ensures end.Finished? ==> WakeSucceeded(log)
    ensures end.Aborted? ==> WakeFailed(log, end.error)
    ensures end.Unfinished? ==> WakeCutShort(log, rest)
  {
    rest := s;
    log := [];
    while rest.wakes != []
      invariant Replays(s, log, rest)
      invariant FailedRounds(log)
      decreases |rest.wakes|
    {
      var before := log;
      var woken := NextWake(rest);
      var ack := woken.0;
      ReplaysStep(s, log, rest, Woke(ack), woken.1);
      rest := woken.1;
      log := log + [Woke(ack)];
      assert log[..|log| - 1] == before;
      if ack.Nack? {
        return Aborted(ack.error), rest, log;
      }
      if rest.polls == [] {
        return Unfinished, rest, log;
      }
      var answer := NextPoll(rest);
      var outcome := answer.0;
      ReplaysStep(s, log, rest, Polled(outcome), answer.1);
      rest := answer.1;
      log := log + [Polled(outcome)];
      assert log[..|log| - 2] == before;
      if outcome.Read? {
        return Finished, rest, log;
      }
    }
    end := Unfinished;
  }

  /**
   Warm-up phase: read and discard, then check the clock, until the check finds
   the warm-up time elapsed. `checks` is the number of checks that find it not yet
   elapsed, so the phase reads `checks + 1` times whatever the reads return.
   */
  method WarmUp(s: Sensor, checks: nat) returns (end: PhaseEnd, rest: Sensor, log: seq<Event>)
    ensures Replays(s, log, rest)
    ensures OnlyPolls(log)
    ensures !end.Aborted?
    ensures end.Finished? <==> checks < |s.polls|
    ensures end.Finished? ==> WarmedUp(log, checks)
    ensures end.Unfinished? ==> rest.polls == [] && |log| <= checks
  {
    rest := s;
    log := [];
    while rest.polls != []
      invariant Replays(s, log, rest)
      invariant OnlyPolls(log)
      invariant |log| <= checks
      invariant |log| + |rest.polls| == |s.polls|
      decreases |rest.polls|
    {
      var answer := NextPoll(rest);
      var outcome := answer.0;
      ReplaysStep(s, log, rest, Polled(outcome), answer.1);
      rest := answer.1;
      log := log + [Polled(outcome)];
      if |log| > checks {
        return Finished, rest, log;
      }
    }
    end := Unfinished;
  }

  /**
   Collect phase: read until `target` reads have succeeded. Failed reads are
   skipped and do not count; the frames are the good reads in the order read.
   */
  method Collect(s: Sensor, target: nat) returns (end: PhaseEnd, rest: Sensor, log: seq<Event>, frames: seq<Frame>)
    ensures Replays(s, log, rest)
    ensures OnlyPolls(log)
    ensures frames == Successes(PollsOf(log))
    ensures !end.Aborted?
    ensures end.Finished? <==> target <= |Successes(s.polls)|
    ensures end.Finished? ==> Collected(log, target, frames)
    ensures end.Unfinished? ==> rest.polls == [] && |frames| < target
  {
    rest := s;
    log := [];
    frames := [];
    while |frames| < target
      invariant Replays(s, log, rest)
      invariant OnlyPolls(log)
      invariant frames == Successes(PollsOf(log))
      invariant |frames| <= target
      invariant |log| > 0 ==> target > 0
      invariant |log| > 0 && log[|log| - 1].outcome.ReadFailed? ==> |frames| < target
      decreases |rest.polls|
    {
      if rest.polls == [] {
        ReplaysPolls(s, log, rest);
        SuccessesConcat(PollsOf(log), rest.polls);
        return Unfinished, rest, log, frames;
      }
      var answer := NextPoll(rest);
      var outcome := answer.0;
      ReplaysStep(s, log, rest, Polled(outcome), answer.1);
      rest := answer.1;
      var before := log;
      log := log + [Polled(outcome)];
      assert log[..|log| - 1] == before;
      if outcome.Read? {
        frames := frames + [outcome.frame];
      }
    }
    ReplaysPolls(s, log, rest);
    SuccessesConcat(PollsOf(log), rest.polls);
    end := Finished;
  }

  /** A failed wake ended the cycle with `error`, before any warm-up, collection or sleep. */
  predicate AbortedAtWake(trace: Trace, error: SensorError)
  {
    WakeFailed(trace.wake, error) && trace.warmUp == [] && trace.collect == [] && trace.sleep == []
  }

  /**
   The cycle went through every phase: the wake phase ended on a good read, the
   warm-up read `warmupChecks + 1` times, collection read until it held `target`
   good frames, and the sensor was put to sleep exactly once, last.
   */
  predicate WentThroughAllPhases(trace: Trace, warmupChecks: nat, target: nat, frames: seq<Frame>)
  {
    && WakeSucceeded(trace.wake)
    && WarmedUp(trace.warmUp, warmupChecks)
    && Collected(trace.collect, target, frames)
    && trace.sleep == [Slept]
  }

  /**
   The script ran out, leaving `rest`, while a phase was still waiting for a
   reply: the wake phase was still retrying, or the warm-up had read at most
   `warmupChecks` times, or collection held fewer than `target` frames. The
   later phases, sleep included, never started.
   */
  predicate StoppedShort(trace: Trace, warmupChecks: nat, target: nat, rest: Sensor)
  {
    && trace.sleep == []
    && (|| (WakeCutShort(trace.wake, rest) && trace.warmUp == [] && trace.collect == [])
        || (&& WakeSucceeded(trace.wake)
            && OnlyPolls(trace.warmUp) && |trace.warmUp| <= warmupChecks
            && trace.collect == [] && rest.polls == [])
        || (&& WakeSucceeded(trace.wake) && WarmedUp(trace.warmUp, warmupChecks)
            && OnlyPolls(trace.collect) && |Successes(PollsOf(trace.collect))| < target
            && rest.polls == []))
  }

  /** The sensor side of the cycle: wake, warm up, collect `target` frames, sleep. */
  method RunSensorProtocol(s: Sensor, target: nat, warmupChecks: nat)
    returns (end: PhaseEnd, rest: Sensor, trace: Trace, frames: seq<Frame>)
    ensures Replays(s, trace.All(), rest)
    ensures end.Aborted? ==> AbortedAtWake(trace, end.error)
    ensures end.Finished? ==> WentThroughAllPhases(trace, warmupChecks, target, frames)
    ensures end.Unfinished? ==> StoppedShort(trace, warmupChecks, target, rest)
  {
    var wakeEnd, afterWake, wakeLog := WakeUntilResponsive(s);
    trace := Trace(wakeLog, [], [], []);
    frames := [];
    if !wakeEnd.Finished? {
      assert trace.All() == wakeLog;
      return wakeEnd, afterWake, trace, frames;
    }

    var warmEnd, afterWarm, warmLog := WarmUp(afterWake, warmupChecks);
    ReplaysCompose(s, wakeLog, afterWake, warmLog, afterWarm);
    trace := trace.(warmUp := warmLog);
    if warmEnd.Unfinished? {
      assert trace.All() == wakeLog + warmLog;
      return Unfinished, afterWarm, trace, frames;
    }

    var collectEnd, afterCollect, collectLog, collected := Collect(afterWarm, target);
    ReplaysCompose(s, wakeLog + warmLog, afterWarm, collectLog, afterCollect);
    trace := trace.(collect := collectLog);
    frames := collected;
    if collectEnd.Unfinished? {
      assert trace.All() == wakeLog + warmLog + collectLog;
      return Unfinished, afterCollect, trace, frames;
    }

    // `sleep()` is called once and its reply discarded
    ReplaysStep(afterCollect, [], afterCollect, Slept, afterCollect);
    assert [] + [Slept] == [Slept];
    rest := afterCollect;
    ReplaysCompose(s, wakeLog + warmLog + collectLog, afterCollect, [Slept], rest);
    trace := trace.(sleep := [Slept]);
    assert trace.All() == wakeLog + warmLog + collectLog + [Slept];
    end := Finished;
  }

  /**
   One call of `get_air_quality_status`: run the sensor protocol for
   `opts.measurements` frames and reduce the frames taken at `now`. Also returns
   the frames and the calls made.
   */
  method GetAirQualityStatus(s: Sensor, opts: Opts, warmupChecks: nat, now: Timestamp)
    returns (r: StatusResult, rest: Sensor, trace: Trace, frames: seq<Frame>)
    ensures Replays(s, trace.All(), rest)
    ensures r.SensorFailed? ==> AbortedAtWake(trace, r.error)
    ensures r.Acquired? || r.Panicked? ==> WentThroughAllPhases(trace, warmupChecks, opts.measurements, frames)
    // the result is the reduction of the collected frames
    ensures r.Acquired? ==> StatusFromMeasurements(frames, now) == Ok(r.status)
    ensures r.Panicked? ==> StatusFromMeasurements(frames, now) == Err(r.panic)
    // with zero measurements a cycle that gets past the sensor divides by zero
    ensures opts.measurements == 0 && (r.Acquired? || r.Panicked?) ==> r == Panicked(DivideByZero)
    ensures r.Stalled? ==> StoppedShort(trace, warmupChecks, opts.measurements, rest)
    // once the sensor was put to sleep, a status or a panic follows
    ensures trace.sleep != [] <==> r.Acquired? || r.Panicked?
  {
    var end;
    end, rest, trace, frames := RunSensorProtocol(s, opts.measurements, warmupChecks);
    match end
    case Aborted(e) => r := SensorFailed(e);
    case Unfinished => r := Stalled;
    case Finished =>
      match StatusFromMeasurements(frames, now)
      case Ok(status) => r := Acquired(status);
      case Err(p) => r := Panicked(p);
  }
}

=== FILE: aggregation.dfy ===
/**
 Reduction of the collected frames to one status: per channel, the `u32` sum of
 the readings divided by the number of frames, `len() as u32`.
 */
module Aggregation {
  import opened Units
  import opened Results
  import opened Pms7003

  /** Wall-clock time of the reduction; its contents are not interpreted. */
  datatype Timestamp = Timestamp(nanos: int)

  datatype AirQualityStatus = AirQualityStatus(pm1_0: u32, pm2_5: u32, pm10: u32, timestamp: Timestamp)

  /** The two ways the reduction can panic. */
  datatype Panic = AddOverflow | DivideByZero

  /** The exact (unbounded) sum of one channel. */
  function ChannelSum(frames: seq<Frame>, c: Channel): nat
  {
    if frames == [] then 0 else Value(frames[0], c) + ChannelSum(frames[1..], c)
  }

  /**
   `frames.iter().map(..).sum::<u32>()` continued from accumulator `acc`: a left
   fold whose every addition is checked and panics when it leaves `u32`.
   */
  function CheckedSum(frames: seq<Frame>, c: Channel, acc: u32): Result<u32, Panic>
  {
    if frames == [] then Ok(acc)
    else
      var next := acc + Value(frames[0], c);
      if next > U32_MAX then Err(AddOverflow) else CheckedSum(frames[1..], c, next)
  }

  /** The checked fold overflows exactly when the exact sum does not fit, and otherwise yields it. */
  lemma {:induction false} CheckedSumExact(frames: seq<Frame>, c: Channel, acc: u32)
    ensures acc + ChannelSum(frames, c) <= U32_MAX ==> CheckedSum(frames, c, acc) == Ok(acc + ChannelSum(frames, c))
    ensures acc + ChannelSum(frames, c) > U32_MAX ==> CheckedSum(frames, c, acc) == Err(AddOverflow)
    decreases |frames|
  {
    if frames != [] {
      var next := acc + Value(frames[0], c);
      if next <= U32_MAX {
        CheckedSumExact(frames[1..], c, next);
      }
    }
  }

  /** One channel of the status: checked sum, then division by the truncated frame count. */
  function ChannelMean(frames: seq<Frame>, c: Channel): (r: Result<u32, Panic>)
    ensures r.Ok? <==> ChannelSum(frames, c) <= U32_MAX && |frames| % U32_LIMIT != 0
    ensures r.Ok? ==> r.value == ChannelSum(frames, c) / (|frames| % U32_LIMIT)
    ensures r.Err? ==> r.error == if ChannelSum(frames, c) > U32_MAX then AddOverflow else DivideByZero
  {
    CheckedSumExact(frames, c, 0);
    match CheckedSum(frames, c, 0)
    case Err(p) => Err(p)
    case Ok(total) =>
      var count := |frames| % U32_LIMIT;
      if count == 0 then Err(DivideByZero) else Ok(total / count)
  }

  /** The sums of all three channels fit in `u32`. */
  predicate SumsFit(frames: seq<Frame>)
  {
    && ChannelSum(frames, Pm1_0) <= U32_MAX
    && ChannelSum(frames, Pm2_5) <= U32_MAX
    && ChannelSum(frames, Pm10) <= U32_MAX
  }

  /**
   The status of a batch of frames, or the panic the reduction hits first
   (channels in field order: `pm_1_0`, `pm_2_5`, `pm_10`).
   */
  function StatusFromMeasurements(frames: seq<Frame>, now: Timestamp): (r: Result<AirQualityStatus, Panic>)
    ensures r.Ok? <==> SumsFit(frames) && |frames| % U32_LIMIT != 0
    ensures r.Ok? ==> r.value.timestamp == now
    ensures frames == [] ==> r == Err(DivideByZero)
    // the first channel to fail decides the panic: its sum overflows, or else the count truncates to 0
    ensures r.Err? ==> r.error == (if ChannelSum(frames, Pm1_0) <= U32_MAX && |frames| % U32_LIMIT == 0 then DivideByZero else AddOverflow)
    ensures r.Ok? ==>
      && r.value.pm1_0 == ChannelSum(frames, Pm1_0) / (|frames| % U32_LIMIT)
      && r.value.pm2_5 == ChannelSum(frames, Pm2_5) / (|frames| % U32_LIMIT)
      && r.value.pm10 == ChannelSum(frames, Pm10) / (|frames| % U32_LIMIT)
  {
    var pm1_0 := ChannelMean(frames, Pm1_0);
    var pm2_5 := ChannelMean(frames, Pm2_5);
    var pm10 := ChannelMean(frames, Pm10);
    if pm1_0.Err? then Err(pm1_0.error)
    else if pm2_5.Err? then Err(pm2_5.error)
    else if pm10.Err? then Err(pm10.error)
    else Ok(AirQualityStatus(pm1_0.value, pm2_5.value, pm10.value, now))
  }

  /** Up to 65537 frames the reduction never overflows: 65537 * 65535 == 2^32 - 1. */
  const MAX_FRAMES_WITHOUT_OVERFLOW: nat := 65537

  lemma {:induction false} SumsFitUpToBound(frames: seq<Frame>)
    requires |frames| <= MAX_FRAMES_WITHOUT_OVERFLOW
    ensures SumsFit(frames)
  {
    ChannelSumBelow(frames, Pm1_0, U16_MAX);
    ChannelSumBelow(frames, Pm2_5, U16_MAX);
    ChannelSumBelow(frames, Pm10, U16_MAX);
  }

  /**
   For any non-empty batch of at most 65537 frames the reduction succeeds and each
   channel is the truncated mean of that channel over the batch.
   */
  lemma {:induction false} StatusIsTruncatedMean(frames: seq<Frame>, now: Timestamp)
    requires 1 <= |frames| <= MAX_FRAMES_WITHOUT_OVERFLOW
    ensures StatusFromMeasurements(frames, now).Ok?
    ensures StatusFromMeasurements(frames, now).value
         == AirQualityStatus(ChannelSum(frames, Pm1_0) / |frames|,
                             ChannelSum(frames, Pm2_5) / |frames|,
                             ChannelSum(frames, Pm10) / |frames|,
                             now)
  {
    SumsFitUpToBound(frames);
    assert |frames| % U32_LIMIT == |frames|;
  }

  /** The smallest reading of a channel. */
  function MinValue(frames: seq<Frame>, c: Channel): (m: u16)
    requires frames != []
    ensures forall i | 0 <= i < |frames| :: m <= Value(frames[i], c)
    ensures exists i | 0 <= i < |frames| :: m == Value(frames[i], c)
    decreases |frames|
  {
    if |frames| == 1 then Value(frames[0], c)
    else
      var rest := MinValue(frames[1..], c);
      if Value(frames[0], c) <= rest then Value(frames[0], c) else rest
  }

  /** The largest reading of a channel. */
  function MaxValue(frames: seq<Frame>, c: Channel): (m: u16)
    requires frames != []
    ensures forall i | 0 <= i < |frames| :: Value(frames[i], c) <= m
    ensures exists i | 0 <= i < |frames| :: m == Value(frames[i], c)
    decreases |frames|
  {
    if |frames| == 1 then Value(frames[0], c)
    else
      var rest := MaxValue(frames[1..], c);
      if Value(frames[0], c) >= rest then Value(frames[0], c) else rest
  }

  /** A sum of readings that are all at least `lo` is at least `n * lo`. */
  lemma {:induction false} ChannelSumAbove(frames: seq<Frame>, c: Channel, lo: nat)
    requires forall i | 0 <= i < |frames| :: lo <= Value(frames[i], c)
    ensures |frames| * lo <= ChannelSum(frames, c)
    decreases |frames|
  {
    if frames != [] {
      ChannelSumAbove(frames[1..], c, lo);
      assert |frames| * lo == |frames[1..]| * lo + lo;
    }
  }

  /** A sum of readings that are all at most `hi` is at most `n * hi`. */
  lemma {:induction false} ChannelSumBelow(frames: seq<Frame>, c: Channel, hi: nat)
    requires forall i | 0 <= i < |frames| :: Value(frames[i], c) <= hi
    ensures ChannelSum(frames, c) <= |frames| * hi
    decreases |frames|
  {
    if frames != [] {
      ChannelSumBelow(frames[1..], c, hi);
      assert |frames| * hi == |frames[1..]| * hi + hi;
    }
  }

  /** Truncated division of a total in `[n * lo, n * hi]` by `n` stays in `[lo, hi]`. */
  lemma {:induction false} DivisionBetween(total: int, n: int, lo: int, hi: int)
    requires n > 0 && total >= 0
    requires n * lo <= total <= n * hi
    ensures lo <= total / n <= hi
  {
    var q := total / n;
    assert n * (q + 1) > total;
    PositiveFactor(n, q + 1 - lo);
    NonNegativeFactor(n, hi - q);
  }

  lemma PositiveFactor(n: int, k: int)
    requires n > 0 && n * k > 0
    ensures k > 0
  {
  }

  lemma NonNegativeFactor(n: int, k: int)
    requires n > 0 && n * k >= 0
    ensures k >= 0
  {
  }

  /** The truncated mean of a channel lies between its smallest and largest reading. */
  lemma {:induction false} MeanWithinRange(frames: seq<Frame>, c: Channel)
    requires frames != []
    ensures MinValue(frames, c) <= ChannelSum(frames, c) / |frames| <= MaxValue(frames, c)
  {
    ChannelSumAbove(frames, c, MinValue(frames, c));
    ChannelSumBelow(frames, c, MaxValue(frames, c));
    DivisionBetween(ChannelSum(frames, c), |frames|, MinValue(frames, c), MaxValue(frames, c));
  }

  /**
   When no channel sum overflows and the frame count fits in `u32`, every channel
   of the status lies between the smallest and the largest reading of that channel.
   */
  lemma {:induction false} StatusWithinChannelRange(frames: seq<Frame>, now: Timestamp)
    requires 1 <= |frames| < U32_LIMIT
    requires SumsFit(frames)
    ensures StatusFromMeasurements(frames, now).Ok?
    ensures var s := StatusFromMeasurements(frames, now).value;
      && MinValue(frames, Pm1_0) <= s.pm1_0 <= MaxValue(frames, Pm1_0)
      && MinValue(frames, Pm2_5) <= s.pm2_5 <= MaxValue(frames, Pm2_5)
      && MinValue(frames, Pm10) <= s.pm10 <= MaxValue(frames, Pm10)
  {
    var n := |frames|;
    assert n % U32_LIMIT == n;
    var s := StatusFromMeasurements(frames, now).value;
    assert s.pm1_0 == ChannelSum(frames, Pm1_0) / n;
    assert s.pm2_5 == ChannelSum(frames, Pm2_5) / n;
    assert s.pm10 == ChannelSum(frames, Pm10) / n;
    MeanWithinRange(frames, Pm1_0);
    MeanWithinRange(frames, Pm2_5);
    MeanWithinRange(frames, Pm10);
  }

  /** Readings 1, 2 and 3 on a channel aggregate to 2. */
  lemma AggregationExample(now: Timestamp)
    ensures StatusFromMeasurements([Frame(1, 10, 0), Frame(2, 20, 0), Frame(3, 40, 7)], now)
         == Ok(AirQualityStatus(2, 23, 2, now))
  {
  }
}

=== FILE: decimal.dfy ===
/** Decimal rendering of unsigned integers, as `format!("{}", n)` writes them, and its reading. */
module Decimal {
  import opened Results

  predicate IsDigit(ch: char)
  {
    '0' <= ch <= '9'
  }

  predicate IsDigits(s: string)
  {
    forall i | 0 <= i < |s| :: IsDigit(s[i])
  }

  function DigitChar(d: nat): (ch: char)
    requires d < 10
    ensures IsDigit(ch) && ch as int - '0' as int == d
  {
    ('0' as int + d) as char
  }

  function DigitValue(ch: char): (d: nat)
    requires IsDigit(ch)
    ensures d < 10
  {
    ch as int - '0' as int
  }

  /** The shortest decimal numeral of `n`: only digits, never a leading zero. */
  function Render(n: nat): (s: string)
    ensures 1 <= |s| && IsDigits(s)
    ensures s[0] == '0' ==> s == "0"
    decreases n
  {
    if n < 10 then [DigitChar(n)] else Render(n / 10) + [DigitChar(n % 10)]
  }

  /** The number a string of digits denotes; the empty string denotes 0. */
  function ValueOf(s: string): nat
    requires IsDigits(s)
  {
    if s == [] then 0 else ValueOf(s[..|s| - 1]) * 10 + DigitValue(s[|s| - 1])
  }

  /** How a subscriber reads a numeric payload: a non-empty string of digits, or nothing. */
  function Parse(s: string): (r: Option<nat>)
    ensures r.Some? <==> s != [] && IsDigits(s)
  {
    if s != [] && IsDigits(s) then Some(ValueOf(s)) else None
  }

  lemma {:induction false} ValueOfRender(n: nat)
    ensures ValueOf(Render(n)) == n
    decreases n
  {
    if n >= 10 {
      var s := Render(n);
      assert s[..|s| - 1] == Render(n / 10);
      ValueOfRender(n / 10);
    }
  }

  /** Reading a rendered number gives the number back. */
  lemma ParseRender(n: nat)
    ensures Parse(Render(n)) == Some(n)
  {
    ValueOfRender(n);
  }
}

=== FILE: monitor.dfy ===
/**
 One scheduled cycle of the monitor: acquire a status, unwrapping the result,
 then publish it.
 */
module Monitor {
  import opened Results
  import opened Pms7003
  import opened Aggregation
  import opened Mqtt
  import opened Acquisition
  import opened Publisher

  /**
   How a cycle ended. `AcquisitionPanic`, `AggregationPanic` and `PublishPanic`
   are panics of the program; `SensorStalled` and `BrokerStalled` mean a reply
   the script does not hold was needed.
   */
  datatype CycleOutcome =
    | Completed(status: AirQualityStatus)
    | AcquisitionPanic(sensorError: SensorError)
    | AggregationPanic(panic: Panic)
    | PublishPanic(index: nat, clientError: ClientError)
    | SensorStalled
    | BrokerStalled

  /**
   One run of the scheduled job: `get_air_quality_status(...).unwrap()`, then
   `publish_status` of the status. Also returns the frames and the sensor calls.
   */
  method MonitorCycle(
    sensor: Sensor, broker: Broker, opts: Opts, warmupChecks: nat, now: Timestamp,
    serialize: AirQualityStatus -> string)
    returns (out: CycleOutcome, sensorAfter: Sensor, brokerAfter: Broker, trace: Trace, frames: seq<Frame>)
    ensures Replays(sensor, trace.All(), sensorAfter)
    // a completed cycle published exactly the status of the frames it read from the sensor
    ensures out.Completed? ==>
      && WentThroughAllPhases(trace, warmupChecks, opts.measurements, frames)
      && StatusFromMeasurements(frames, now) == Ok(out.status)
      && brokerAfter.sent == broker.sent + StatusMessages(out.status, opts.topic, serialize)
      && 4 <= |broker.replies| && (forall i | 0 <= i < 4 :: broker.replies[i] == Accepted)
      && brokerAfter.replies == broker.replies[4..]
    // nothing is published unless the acquisition produced a status
    ensures out.AcquisitionPanic? ==> AbortedAtWake(trace, out.sensorError) && brokerAfter == broker
    ensures out.AggregationPanic? ==>
      && WentThroughAllPhases(trace, warmupChecks, opts.measurements, frames)
      && StatusFromMeasurements(frames, now) == Err(out.panic)
      && brokerAfter == broker
    ensures out.SensorStalled? ==>
      StoppedShort(trace, warmupChecks, opts.measurements, sensorAfter) && brokerAfter == broker
    // a publication that stops early sent a prefix of the status messages
    ensures out.PublishPanic? || out.BrokerStalled? ==>
      && WentThroughAllPhases(trace, warmupChecks, opts.measurements, frames)
      && StatusFromMeasurements(frames, now).Ok?
      && broker.sent <= brokerAfter.sent
      && brokerAfter.sent[|broker.sent|..] < StatusMessages(StatusFromMeasurements(frames, now).value, opts.topic, serialize)
    ensures out.PublishPanic? ==>
      && out.index < 4 && |brokerAfter.sent| == |broker.sent| + out.index
      && out.index < |broker.replies| && broker.replies[out.index] == Rejected(out.clientError)
      && (forall i | 0 <= i < out.index :: broker.replies[i] == Accepted)
    ensures out.BrokerStalled? ==>
      && |broker.replies| < 4
      && (forall i | 0 <= i < |broker.replies| :: broker.replies[i] == Accepted)
    // with zero measurements no cycle publishes
    ensures opts.measurements == 0 ==>
      out.AcquisitionPanic? || out == AggregationPanic(DivideByZero) || out.SensorStalled?
  {
    var acquired;
    acquired, sensorAfter, trace, frames := GetAirQualityStatus(sensor, opts, warmupChecks, now);
    brokerAfter := broker;
    match acquired
    case SensorFailed(e) => out := AcquisitionPanic(e);
    case Panicked(p) => out := AggregationPanic(p);
    case Stalled => out := SensorStalled;
    case Acquired(status) =>
      var published;
      published, brokerAfter := PublishStatus(broker, status, opts.topic, serialize);
      var msgs := StatusMessages(status, opts.topic, serialize);
      match published
      case Published => out := Completed(status);
      case PublishPanicked(i, e) =>
        assert brokerAfter.sent[|broker.sent|..] == msgs[..i];
        out := PublishPanic(i, e);
      case PublishStalled =>
        assert brokerAfter.sent[|broker.sent|..] == msgs[..|broker.replies|];
        out := BrokerStalled;
  }
}

=== FILE: mqtt.dfy ===
/**
 The broker connection as the publisher sees it: the messages it accepted, in
 order, and the replies it will give to the next `publish` calls.
 */
module Mqtt {

  datatype QoS = AtMostOnce | AtLeastOnce | ExactlyOnce

  datatype Message = Message(topic: string, qos: QoS, retain: bool, payload: string)

  /** A client-side failure of `publish`; its cause is not modelled. */
  datatype ClientError = ClientError(code: int)

  datatype Reply = Accepted | Rejected(error: ClientError)

  datatype Broker = Broker(sent: seq<Message>, replies: seq<Reply>)

  /**
   The retained message per topic after `sent` was delivered in order: a
   retained message replaces the topic's value, and one with an empty payload
   clears it (section 3.3.1.3 of MQTT 3.1.1). Non-retained messages leave it alone.
   */
  function Retained(sent: seq<Message>): (store: map<string, string>)
    ensures forall t | t in store :: store[t] != []
  {
    if sent == [] then map[]
    else
      var m := sent[|sent| - 1];
      var before := Retained(sent[..|sent| - 1]);
      if !m.retain then before
      else if m.payload == [] then before - {m.topic}
      else before[m.topic := m.payload]
  }

  lemma {:induction false} RetainedAppend(sent: seq<Message>, m: Message)
    ensures m.retain && m.payload != [] ==> Retained(sent + [m]) == Retained(sent)[m.topic := m.payload]
    ensures m.retain && m.payload == [] ==> Retained(sent + [m]) == Retained(sent) - {m.topic}
    ensures !m.retain ==> Retained(sent + [m]) == Retained(sent)
  {
  }
}

=== FILE: pms7003.dfy ===
/**
 The PMS7003 particulate sensor as the monitor sees it: an oracle that answers
 `wake` and `read` calls from two scripted response streams, and the log of
 calls the monitor makes. The reply to `sleep` is discarded by the program
 (`let _ = sensor.sleep()`), so it is not scripted: the call always returns.
 */
module Pms7003 {
  import opened Units

  /** The three particulate channels of one sensor output frame. */
  datatype Frame = Frame(pm1_0: u16, pm2_5: u16, pm10: u16)

  datatype Channel = Pm1_0 | Pm2_5 | Pm10

  function Value(f: Frame, c: Channel): u16
  {
    match c
    case Pm1_0 => f.pm1_0
    case Pm2_5 => f.pm2_5
    case Pm10 => f.pm10
  }

  /** A driver error (checksum mismatch, partial frame, serial failure); its cause is not modelled. */
  datatype SensorError = SensorError(code: int)

  /** Reply to a `wake` command. */
  datatype Ack = Ack | Nack(error: SensorError)

  /** Reply to a `read`. */
  datatype ReadOutcome = Read(frame: Frame) | ReadFailed(error: SensorError)

  /**
   The sensor handle: the replies it will give to the next `wake` and `read`
   calls, in order. Each call consumes the head of its stream; a call whose
   stream is empty is one whose reply the model does not observe.
   */
  datatype Sensor = Sensor(wakes: seq<Ack>, polls: seq<ReadOutcome>)

  /** One call made to the sensor, with the reply it got (`sleep`'s is discarded). */
  datatype Event = Woke(ack: Ack) | Polled(outcome: ReadOutcome) | Slept

  /** The read replies recorded in `log`, in order. */
  function PollsOf(log: seq<Event>): seq<ReadOutcome>
  {
    if log == [] then []
    else
      var e := log[|log| - 1];
      PollsOf(log[..|log| - 1]) + (if e.Polled? then [e.outcome] else [])
  }

  /**
   `s` before answering the call recorded by `e`: its reply is put back at the
   head of its stream. A `sleep` consumed nothing.
   */
  function PutBack(e: Event, s: Sensor): (before: Sensor)
  {
    match e
    case Woke(a) => s.(wakes := [a] + s.wakes)
    case Polled(o) => s.(polls := [o] + s.polls)
    case Slept => s
  }

  /** The sensor as it was before it answered the calls in `log` and was left as `rest`. */
  function Unconsume(log: seq<Event>, rest: Sensor): Sensor
  {
    if log == [] then rest
    else Unconsume(log[..|log| - 1], PutBack(log[|log| - 1], rest))
  }

  /** Consumes the reply to the next `wake()`. */
  function NextWake(s: Sensor): (r: (Ack, Sensor))
    requires s.wakes != []
    ensures PutBack(Woke(r.0), r.1) == s
  {
    assert [s.wakes[0]] + s.wakes[1..] == s.wakes;
    (s.wakes[0], s.(wakes := s.wakes[1..]))
  }

  /** Consumes the reply to the next `read()`. */
  function NextPoll(s: Sensor): (r: (ReadOutcome, Sensor))
    requires s.polls != []
    ensures PutBack(Polled(r.0), r.1) == s
    ensures |r.1.polls| == |s.polls| - 1
  {
    assert [s.polls[0]] + s.polls[1..] == s.polls;
    (s.polls[0], s.(polls := s.polls[1..]))
  }

  /**
   `log` is exactly what `s` answered on the way to `rest`: every reply in the
   log is the next unconsumed reply of its stream, and nothing else was consumed.
   */
  predicate Replays(s: Sensor, log: seq<Event>, rest: Sensor)
  {
    Unconsume(log, rest) == s
  }

  /** The frames of the successful reads, in the order they were read. */
  function Successes(outcomes: seq<ReadOutcome>): (frames: seq<Frame>)
    ensures |frames| <= |outcomes|
    ensures forall i | 0 <= i < |frames| :: Read(frames[i]) in outcomes
    ensures forall i | 0 <= i < |outcomes| && outcomes[i].Read? :: outcomes[i].frame in frames
  {
    if outcomes == [] then []
    else
      var last := outcomes[|outcomes| - 1];
      Successes(outcomes[..|outcomes| - 1]) + (if last.Read? then [last.frame] else [])
  }

  /** Filtering successes commutes with concatenating read streams. */
  lemma {:induction false} SuccessesConcat(a: seq<ReadOutcome>, b: seq<ReadOutcome>)
    ensures Successes(a + b) == Successes(a) + Successes(b)
    decreases |b|
  {
    if b == [] {
      assert a + b == a;
    } else {
      var b' := b[..|b| - 1];
      assert (a + b)[..|a + b| - 1] == a + b';
      SuccessesConcat(a, b');
    }
  }

  /** A successful read followed by `rest` keeps its frame first. */
  lemma SuccessesFromRead(f: Frame, rest: seq<ReadOutcome>)
    ensures Successes([Read(f)] + rest) == [f] + Successes(rest)
  {
    SuccessesConcat([Read(f)], rest);
    assert Successes([Read(f)]) == Successes([]) + [f];
  }

  /** The frame of the successful read at position `i` follows the frames of the reads before it. */
  lemma SuccessesAt(outcomes: seq<ReadOutcome>, i: nat)
    requires i < |outcomes| && outcomes[i].Read?
    ensures |Successes(outcomes[..i])| < |Successes(outcomes)|
    ensures Successes(outcomes)[|Successes(outcomes[..i])|] == outcomes[i].frame
  {
    var f := outcomes[i].frame;
    assert outcomes == outcomes[..i] + ([Read(f)] + outcomes[i + 1..]);
    SuccessesConcat(outcomes[..i], [Read(f)] + outcomes[i + 1..]);
    SuccessesFromRead(f, outcomes[i + 1..]);
  }

  /** Successes keeps every successful read, in the order read. */
  lemma SuccessesInOrder(outcomes: seq<ReadOutcome>)
    ensures forall i | 0 <= i < |outcomes| && outcomes[i].Read? ::
      && |Successes(outcomes[..i])| < |Successes(outcomes)|
      && Successes(outcomes)[|Successes(outcomes[..i])|] == outcomes[i].frame
  {
    forall i | 0 <= i < |outcomes| && outcomes[i].Read? {
      SuccessesAt(outcomes, i);
    }
  }

  /** Undoing two consecutive logs undoes the later one first. */
  lemma {:induction false} UnconsumeConcat(l1: seq<Event>, l2: seq<Event>, rest: Sensor)
    ensures Unconsume(l1 + l2, rest) == Unconsume(l1, Unconsume(l2, rest))
    decreases |l2|
  {
    if l2 == [] {
      assert l1 + l2 == l1;
    } else {
      var l2' := l2[..|l2| - 1];
      assert (l1 + l2)[..|l1 + l2| - 1] == l1 + l2';
      UnconsumeConcat(l1, l2', PutBack(l2[|l2| - 1], rest));
    }
  }

  /** A log of reads only consumed exactly its read replies, in order, and nothing else. */
  lemma {:induction false} ReplaysPolls(s: Sensor, log: seq<Event>, rest: Sensor)
    requires forall i | 0 <= i < |log| :: log[i].Polled?
    ensures Replays(s, log, rest) <==>
      s == rest.(polls := PollsOf(log) + rest.polls)
    decreases |log|
  {
    if log != [] {
      var init := log[..|log| - 1];
      var e := log[|log| - 1];
      ReplaysPolls(Unconsume(init, PutBack(e, rest)), init, PutBack(e, rest));
      ReplaysPolls(s, init, PutBack(e, rest));
      assert PollsOf(init) + ([e.outcome] + rest.polls) == PollsOf(log) + rest.polls;
    }
  }

  /** Two consecutive stretches of interaction replay as one. */
  lemma ReplaysCompose(s: Sensor, l1: seq<Event>, mid: Sensor, l2: seq<Event>, rest: Sensor)
    requires Replays(s, l1, mid)
    requires Replays(mid, l2, rest)
    ensures Replays(s, l1 + l2, rest)
  {
    UnconsumeConcat(l1, l2, rest);
  }

  /** Answering the next call of one kind extends the replay by that call. */
  lemma ReplaysStep(s: Sensor, log: seq<Event>, rest: Sensor, e: Event, rest': Sensor)
    requires Replays(s, log, rest)
    requires PutBack(e, rest') == rest
    ensures Replays(s, log + [e], rest')
  {
  }
}

=== FILE: publisher.dfy ===
/**
 Publication of a status: four retained, at-least-once messages under the topic
 prefix, the full status first and then one decimal reading per channel.
 */
module Publisher {
  import opened Results
  import opened Decimal
  import opened Mqtt
  import opened Aggregation

  const STATUS_SUFFIX: string := "/status"
  const PM1_0_SUFFIX: string := "/pm1_0"
  const PM2_5_SUFFIX: string := "/pm2_5"
  const PM10_SUFFIX: string := "/pm10"

  /** Distinct suffixes on a common prefix give distinct topics. */
  lemma DistinctSuffixes(prefix: string, a: string, b: string)
    requires a != b
    ensures prefix + a != prefix + b
  {
    assert (prefix + a)[|prefix|..] == a;
    assert (prefix + b)[|prefix|..] == b;
  }

  /**
   The messages `publish_status` sends, in order. `serialize` stands for the
   structured rendering of the whole status.
   */
  function StatusMessages(status: AirQualityStatus, topic: string, serialize: AirQualityStatus -> string)
    : (msgs: seq<Message>)
    ensures |msgs| == 4
    ensures forall i | 0 <= i < |msgs| :: msgs[i].qos == AtLeastOnce && msgs[i].retain
    ensures forall i | 0 <= i < |msgs| :: |topic| <= |msgs[i].topic| && msgs[i].topic[..|topic|] == topic
    ensures forall i, j | 0 <= i < j < |msgs| :: msgs[i].topic != msgs[j].topic
    ensures msgs[0].topic == topic + STATUS_SUFFIX && msgs[0].payload == serialize(status)
    ensures msgs[1].topic == topic + PM1_0_SUFFIX && Parse(msgs[1].payload) == Some(status.pm1_0)
    ensures msgs[1].payload == Render(status.pm1_0)
    ensures msgs[2].topic == topic + PM2_5_SUFFIX && Parse(msgs[2].payload) == Some(status.pm2_5)
    ensures msgs[2].payload == Render(status.pm2_5)
    ensures msgs[3].topic == topic + PM10_SUFFIX && Parse(msgs[3].payload) == Some(status.pm10)
    ensures msgs[3].payload == Render(status.pm10)
  {
    DistinctSuffixes(topic, STATUS_SUFFIX, PM1_0_SUFFIX);
    DistinctSuffixes(topic, STATUS_SUFFIX, PM2_5_SUFFIX);
    DistinctSuffixes(topic, STATUS_SUFFIX, PM10_SUFFIX);
    DistinctSuffixes(topic, PM1_0_SUFFIX, PM2_5_SUFFIX);
    DistinctSuffixes(topic, PM1_0_SUFFIX, PM10_SUFFIX);
    DistinctSuffixes(topic, PM2_5_SUFFIX, PM10_SUFFIX);
    ParseRender(status.pm1_0);
    ParseRender(status.pm2_5);
    ParseRender(status.pm10);
    [ Message(topic + STATUS_SUFFIX, AtLeastOnce, true, serialize(status)),
      Message(topic + PM1_0_SUFFIX, AtLeastOnce, true, Render(status.pm1_0)),
      Message(topic + PM2_5_SUFFIX, AtLeastOnce, true, Render(status.pm2_5)),
      Message(topic + PM10_SUFFIX, AtLeastOnce, true, Render(status.pm10)) ]
  }

  /**
   How a publication ended: all four sent, a `publish` failed (its `unwrap`
   panics the program there), or a reply the model does not observe was needed.
   */
  datatype PublishOutcome = Published | PublishPanicked(index: nat, error: ClientError) | PublishStalled

  /** Sends the four status messages in order, stopping at the first failed `publish`. */
  method PublishStatus(broker: Broker, status: AirQualityStatus, topic: string, serialize: AirQualityStatus -> string)
    returns (out: PublishOutcome, after: Broker)
    ensures out.Published? <==> 4 <= |broker.replies| && forall i | 0 <= i < 4 :: broker.replies[i] == Accepted
    ensures out.Published? ==>
      && after.sent == broker.sent + StatusMessages(status, topic, serialize)
      && after.replies == broker.replies[4..]
    // a failed publish stops the sequence: only the messages before it were sent
    ensures out.PublishPanicked? ==>
      && out.index < 4 && out.index < |broker.replies|
      && broker.replies[out.index] == Rejected(out.error)
      && (forall i | 0 <= i < out.index :: broker.replies[i] == Accepted)
      && after.sent == broker.sent + StatusMessages(status, topic, serialize)[..out.index]
      && after.replies == broker.replies[out.index + 1..]
    ensures out.PublishStalled? ==>
      && |broker.replies| < 4 && after.replies == []
      && (forall i | 0 <= i < |broker.replies| :: broker.replies[i] == Accepted)
      && after.sent == broker.sent + StatusMessages(status, topic, serialize)[..|broker.replies|]
  {
    var msgs := StatusMessages(status, topic, serialize);
    after := broker;
    var i := 0;
    while i < 4
      invariant 0 <= i <= 4 && i <= |broker.replies|
      invariant after.replies == broker.replies[i..]
      invariant after.sent == broker.sent + msgs[..i]
      invariant forall j | 0 <= j < i :: broker.replies[j] == Accepted
    {
      if after.replies == [] {
        return PublishStalled, after;
      }
      var reply := after.replies[0];
      if reply.Rejected? {
        return PublishPanicked(i, reply.error), after.(replies := after.replies[1..]);
      }
      assert msgs[..i + 1] == msgs[..i] + [msgs[i]];
      after := Broker(after.sent + [msgs[i]], after.replies[1..]);
      i := i + 1;
    }
    out := Published;
  }

  /** The four topics a status is published under. */
  function StatusTopics(topic: string): set<string>
  {
    {topic + STATUS_SUFFIX, topic + PM1_0_SUFFIX, topic + PM2_5_SUFFIX, topic + PM10_SUFFIX}
  }

  /**
   After a complete publication a late subscriber reads the status back from the
   retained messages: each channel topic holds the channel's decimal value, the
   status topic the serialized status, and every other topic is as it was.
   */
  lemma SubscribersReadStatus(sent: seq<Message>, status: AirQualityStatus, topic: string, serialize: AirQualityStatus -> string)
    ensures var store := Retained(sent + StatusMessages(status, topic, serialize));
      && topic + PM1_0_SUFFIX in store && Parse(store[topic + PM1_0_SUFFIX]) == Some(status.pm1_0)
      && topic + PM2_5_SUFFIX in store && Parse(store[topic + PM2_5_SUFFIX]) == Some(status.pm2_5)
      && topic + PM10_SUFFIX in store && Parse(store[topic + PM10_SUFFIX]) == Some(status.pm10)
      && (serialize(status) != [] ==> topic + STATUS_SUFFIX in store && store[topic + STATUS_SUFFIX] == serialize(status))
      && (serialize(status) == [] ==> topic + STATUS_SUFFIX !in store)
      && (forall t | t in store && t !in StatusTopics(topic) :: t in Retained(sent) && store[t] == Retained(sent)[t])
      && (forall t | t in Retained(sent) && t !in StatusTopics(topic) :: t in store)
  {
    var msgs := StatusMessages(status, topic, serialize);
    var s1 := sent + msgs[..1];
    var s2 := sent + msgs[..2];
    var s3 := sent + msgs[..3];
    assert s1 == sent + [msgs[0]];
    assert s2 == s1 + [msgs[1]];
    assert s3 == s2 + [msgs[2]];
    assert sent + msgs == s3 + [msgs[3]];
    RetainedAppend(sent, msgs[0]);
    RetainedAppend(s1, msgs[1]);
    RetainedAppend(s2, msgs[2]);
    RetainedAppend(s3, msgs[3]);
  }
}

=== FILE: results.dfy ===
/** Failure-carrying values used across the model. */
module Results {

  datatype Option<+T> = None | Some(value: T)

  datatype Result<+T, +E> = Ok(value: T) | Err(error: E)
}

=== FILE: units.dfy ===
/** Fixed-width unsigned integers of the monitor, as bounded subsets of `int`. */
module Units {

  const U16_MAX: int := 0xFFFF
  const U32_MAX: int := 0xFFFF_FFFF
  /** Number of distinct `u32` values; `x as u32` keeps `x % U32_LIMIT`. */
  const U32_LIMIT: int := 0x1_0000_0000

  type u16 = x: int | 0 <= x <= 0xFFFF
  type u32 = x: int | 0 <= x <= 0xFFFF_FFFF
}
